=== FILE: README.md ===
# Motor state observer — a Dafny model

This project models the state observer of the Pybricks motor control stack
(`lib/pbio/src/observer.c`). The observer is a discrete-time linear model of
a brushed DC motor. It runs in scaled integer arithmetic. Each control tick
it predicts angle, speed and current from the applied voltage. It corrects
the prediction with a feedback voltage derived from the measured angle, and
it raises a stall flag when that feedback points to an unmodelled load. The
same model coefficients also give stateless torque/voltage conversions and
a feedforward torque.

Files:

- `int_math.dfy` (module `IntMath`): the C integer widths, clamp, sign and
  abs, and `Div`, C's division truncating toward zero. Dafny's own `/` is
  Euclidean. `Div` is characterised by its remainder, and `DivUnique` shows
  that this contract determines it.
- `angle.dfy` (module `Angle`): the angle as a total number of millidegrees,
  with the two operations the observer uses, difference and addition.
- `observer.dfy` (module `Observer`): the model, settings and observer
  records, the constants, and every operation of the observer, each as a
  pure function with a contract.
- `observer_properties.dfy` (module `ObserverProperties`): lemmas that relate
  operations to each other or to independent descriptions. Examples are
  continuity and monotonicity of the gain and friction curves, odd symmetry,
  saturation of clamped inputs, the stall start time across many ticks, and
  the wrap-around duration gate.

The observer holds its model and settings, as the C struct does, so that
"nothing else changes" can be stated as an equality of records. Arithmetic
is on mathematical integers. Each division of the source is a `Div`, and
each clamp of the source is a `Clamp`.

Two points where the code's guarantees are narrower than one might expect:

- The committed speed is not clamped after a zero crossing. The anti-chatter
  subtraction (`observer.c:200-204`) comes after the clamp. So
  `Observer.Update` bounds the speed only on ticks without a crossing, and
  on a crossing it states exactly what is subtracted.
- The code does not require `feedback_gain_high >= feedback_gain_low`, so
  `FeedbackGainSteeperAboveKnee` takes it as a precondition.

## Model

| member | source | states |
|---|---|---|
| `Observer.Reset` | lib/pbio/src/observer.c:36-48 | Reset sets the angle to the given value, zeroes speed and current, and clears the stall flag. The stall start time, model, settings and numeric speed sample stay as they were. |
| `ObserverProperties.ResetThenObserve` | lib/pbio/src/observer.c:36-65 | After a reset, the estimate read back is the reset angle at speed 0 with the old numeric speed sample, and the stall report is (false, 0) at any time. |
| `Observer.GetEstimatedState` | lib/pbio/src/observer.c:58-65 | The read-out returns the observer's angle, speed and numeric speed sample, and leaves the observer unchanged. |
| `Observer.UpdateStallState` | lib/pbio/src/observer.c:67-105 | The flag rises exactly when actuation is voltage and all four stall conditions hold; the conditions are stated separately for forward and backward drive. The start time is set to the tick's time only on a false-to-true edge. Every other field is unchanged. |
| `ObserverProperties.StallConditionsMirror` | lib/pbio/src/observer.c:76-95 | Negating speed, voltage and feedback together leaves the verdict unchanged when the negligible-voltage threshold is nonnegative, so the test does not depend on direction. |
| `ObserverProperties.NonVoltageActuationNeverStalls` | lib/pbio/src/observer.c:69-74 | A tick with non-voltage actuation clears the flag whatever the previous state, and no stall is reported afterwards. |
| `ObserverProperties.StallStartKeptWhileStalled` | lib/pbio/src/observer.c:96-104 | Over any run of detector ticks during which the flag stays up, the observer, and so its start time, is unchanged. |
| `Observer.IsStalled` | lib/pbio/src/observer.c:220-228 | A stall is reported only if the flag is up, and then exactly when the elapsed time modulo 2^32 exceeds the stall time. The duration is that elapsed time; otherwise the duration is 0. |
| `ObserverProperties.IsStalledAfterElapsed` | lib/pbio/src/observer.c:220-228 | For a stalled observer, `elapsed` ms after the start (modulo 2^32, so also across a clock wrap) a stall is reported iff `elapsed > stall_time`, with duration `elapsed`. |
| `Observer.FeedbackVoltageAbs` | lib/pbio/src/observer.c:114-123 | With nonnegative error, knee and gains, the feedback magnitude is nonnegative. |
| `ObserverProperties.FeedbackGainContinuousAtKnee` | lib/pbio/src/observer.c:117-122 | With nonnegative gains and knee, going from the threshold (low region) to one past it (high region) raises the feedback by at least 0 and at most `feedback_gain_high / 1000 + 1`: the curve has no jump at the knee. |
| `ObserverProperties.FeedbackVoltageAbsMonotone` | lib/pbio/src/observer.c:114-123 | With nonnegative gains, the feedback magnitude never decreases as the error grows, across both regions and the truncating division. |
| `ObserverProperties.FeedbackGainSteeperAboveKnee` | lib/pbio/src/observer.c:117-122 | Above the knee, with high gain at least the low gain, the feedback is at least what the low gain alone gives. |
| `Observer.FeedbackVoltage` | lib/pbio/src/observer.c:132-142 | The result lies in [-12000, 12000] and is 0 for zero error. With nonnegative gains, its magnitude is the gain curve at the absolute error capped at 12000, and its sign never opposes the error. |
| `ObserverProperties.FeedbackVoltageAntisymmetric` | lib/pbio/src/observer.c:132-142 | Exchanging the estimated and measured angles negates the feedback voltage. |
| `Observer.ModelVoltage` | lib/pbio/src/observer.c:166-168 | The model voltage lies in [-12000, 12000]. It equals applied plus feedback voltage when that sum is in range, and is +12000 or -12000, with the sign of the sum, when it is not. |
| `Observer.CoulombFriction` | lib/pbio/src/observer.c:170-175 | Friction is 0 at speed 0 and bounded by the friction torque in magnitude. With nonnegative friction torque it has the sign of the speed. Beyond the cutoff it is exactly the signed friction torque. |
| `ObserverProperties.CoulombFrictionOdd` | lib/pbio/src/observer.c:170-175 | Friction at the negated speed is the negated friction. |
| `ObserverProperties.CoulombFrictionContinuousAtCutoff` | lib/pbio/src/observer.c:171-175 | The linear ramp reaches the full friction torque exactly at the cutoff, which is also the value just above it. |
| `ObserverProperties.CoulombFrictionRamp` | lib/pbio/src/observer.c:170-175 | Within the cutoff, friction is the linear ramp `speed · torque_friction / cutoff` through the origin: friction times the cutoff differs from `speed · torque_friction` by less than the cutoff. |
| `ObserverProperties.CoulombFrictionMonotone` | lib/pbio/src/observer.c:171-175 | With nonnegative friction torque and positive cutoff, friction is non-decreasing in speed. |
| `Observer.Update` | lib/pbio/src/observer.c:153-209 | One tick keeps model and settings and stores the numeric speed sample. The stall flag and start time follow the stall conditions with the tick's feedback and the pre-tick speed. The current is the clamped prediction, within ±30000. The angle advances by the angle row. All three rows use the pre-tick speed and current, the model voltage and the friction. The committed speed is the clamped prediction minus the friction kick exactly when the clamped prediction lies on the other side of zero than the pre-tick speed, and the clamped prediction otherwise, so within ±2500000. |
| `ObserverProperties.AntiChatterRemovesFriction` | lib/pbio/src/observer.c:200-204 | When an unsaturated speed prediction crosses zero, the committed speed is the prediction with the friction term removed. From speed 0 nothing is subtracted. |
| `ObserverProperties.UpdateIgnoresDiagnostics` | lib/pbio/src/observer.c:157-198 | The new angle, speed and current depend only on the pre-tick angle, speed and current and the inputs. The numeric speed sample and the stall state never feed back into them. |
| `ObserverProperties.PrescaledClampedValuesFitInt32` | lib/pbio/src/observer.c:19-28 | For speed, acceleration, current, voltage and torque, the prescale factor times any clamped value fits in a signed 32-bit integer. |
| `ObserverProperties.PrescaledModelVoltageFitsInt32` | lib/pbio/src/observer.c:187-197 | The prescaled model voltage used by all three rows of the update fits in a signed 32-bit integer. |
| `Observer.GetMaxTorque` | lib/pbio/src/observer.c:236-238 | The maximum torque offered to validators is 1000000 µNm. |
| `Observer.FeedforwardTorque` | lib/pbio/src/observer.c:250-258 | The feedforward torque lies within ± the maximum torque for any references. |
| `ObserverProperties.FeedforwardTorqueOdd` | lib/pbio/src/observer.c:250-258 | Reversing both references reverses the feedforward torque. |
| `ObserverProperties.FeedforwardTorqueStartsWithHalfFriction` | lib/pbio/src/observer.c:250-258 | For a positive reference speed, zero acceleration, positive coefficients and friction torque in [0, 2000000], the feedforward is at least half the friction torque: the compensation follows the sign of the reference speed, and back EMF only adds to it. |
| `ObserverProperties.FeedforwardTorqueAtRest` | lib/pbio/src/observer.c:250-258 | At zero reference speed the friction and back-EMF terms vanish, and the feedforward is the clamped acceleration torque alone. |
| `ObserverProperties.FeedforwardTorqueBackEmf` | lib/pbio/src/observer.c:250-258 | Without friction torque and at zero acceleration, the feedforward is the back-EMF torque of the clamped reference speed, saturated at the maximum torque. |
| `ObserverProperties.FeedforwardTorqueHalfFriction` | lib/pbio/src/observer.c:250-258 | When the speed coefficient exceeds every prescaled speed and the friction torque is within the maximum torque, a positive reference speed at zero acceleration gives exactly half the friction torque, truncated. |
| `ObserverProperties.FeedforwardTorqueSaturates` | lib/pbio/src/observer.c:252-254 | The references are clamped before scaling: out-of-range references give the same torque as the clamped ones. |
| `Observer.TorqueToVoltage` | lib/pbio/src/observer.c:267-269 | The result is the truncated quotient of `2147 · clamp(torque, ±10^6)` by the coefficient: the remainder is smaller than the coefficient in magnitude and is zero or has the sign of the dividend, which determines the quotient. The prescaled clamped torque and the result fit in 32 bits, and the result times the coefficient is at most 2147 · 10^6 in magnitude. |
| `ObserverProperties.TorqueToVoltageSaturates` | lib/pbio/src/observer.c:267-269 | The input is clamped to ±1000000 first: an out-of-range torque converts like its clamped value. |
| `ObserverProperties.TorqueToVoltageMonotone` | lib/pbio/src/observer.c:267-269 | With a positive coefficient the conversion is non-decreasing. |
| `ObserverProperties.TorqueToVoltageOdd` | lib/pbio/src/observer.c:267-269 | Negating the torque negates the voltage. |
| `Observer.VoltageToTorque` | lib/pbio/src/observer.c:278-280 | The result is the truncated quotient of `178956 · clamp(voltage, ±12000)` by the coefficient: the remainder is smaller than the coefficient in magnitude and is zero or has the sign of the dividend. The prescaled clamped voltage and the result fit in 32 bits, and the result times the coefficient is at most 178956 · 12000 in magnitude. |
| `ObserverProperties.VoltageToTorqueSaturates` | lib/pbio/src/observer.c:278-280 | The input is clamped to ±12000 first: an out-of-range voltage converts like its clamped value. |
| `ObserverProperties.VoltageToTorqueMonotone` | lib/pbio/src/observer.c:278-280 | With a positive coefficient the conversion is non-decreasing. |
| `ObserverProperties.VoltageToTorqueOdd` | lib/pbio/src/observer.c:278-280 | Negating the voltage negates the torque. |

## Left out

- The numeric differentiator (`pbio_differentiator_*`) is not part of this model. `Observer.Update` takes its speed sample as a parameter. `Observer.Reset` does not model resetting it.
- Multi-turn angle arithmetic (`pbio_angle_*`) is not part of this model. An angle is its total number of millidegrees, with exact difference and addition.
- `pbio_int_math_clamp/sign/abs` are not part of this model. They are re-defined over unbounded integers, so the `abs(INT32_MIN)` edge case does not arise.
- Observer.Update: sums and products that the code does not clamp first are mathematical integers. In C they are 32-bit and can overflow, which is undefined behaviour. The coefficients are not bounded, so no fit is claimed for:
  - `voltage + feedback_voltage`;
  - the stall test's `voltage * ratio`;
  - the friction ramp's `|speed| * torque_friction`;
  - `PRESCALE_TORQUE * torque`, since `torque_friction` is unbounded;
  - `PRESCALE_SPEED * obs->speed` after a zero crossing, since that speed can exceed 2500000;
  - the four-term sums of the three state-update rows (`observer.c:184-198`). Each prescaled clamped term fits in 32 bits, but their sum need not, and C would overflow before the clamp where the model clamps the exact sum.
- Observer.FeedforwardTorque: the three-term sum of friction, back-EMF and acceleration torque (`observer.c:257`) is a mathematical integer before the clamp. In C it is a 32-bit addition. With small coefficients it can overflow, for example with both coefficients 1 and both references at their maxima, and the model clamps the exact sum where C would wrap.
- Observer.FeedbackVoltageAbs: `error * gain` is a mathematical product. In C it is 32-bit and can overflow for large errors or gains.
- Observer.Update: no bound is stated on the committed speed after a zero crossing. The anti-chatter subtraction follows the clamp, and the code guarantees no bound there.
- Observer.TorqueToVoltage and Observer.VoltageToTorque: outputs are bounded only through their coefficient. Only their inputs are clamped.
- Observer.FeedbackVoltage: sign and magnitude are stated only for nonnegative gains and knee. With negative gains the code can return a voltage that opposes the error.
- Torque-to-voltage round trip: whether the two conversions invert each other depends on how the two coefficients were calibrated. The code does not relate them, so no round-trip property is stated.
- Convergence of the speed estimate over many ticks depends on the numeric values of the fitted coefficients. It is not modelled.
- The anti-chatter step is modelled per tick: it applies exactly on the ticks whose prediction crosses zero. No statement spans several ticks.
- Actuation kinds: the observer only tells voltage actuation apart from the rest. `dcmotor.h` is not part of this model, so the other kinds are listed without further meaning.
- `lib/pbio/cpython/pbio_virtual/platform/robot.py` is a floating-point robot simulation with randomness, not observer logic.
- Bluetooth declarations and tests (`drivers/bt.h`, `lib/pbio/include/pbdrv/bluetooth.h`, `lib/pbio/test/sys/bluetooth.c`) are I/O and concurrency with no observer logic.
- Board configuration headers and `pybricks/parameters/pb_module_parameters.c` hold compile-time constants and a module table only.

=== FILE: angle.dfy ===
/** The observer's angle. The firmware keeps a multi-turn angle as whole
    rotations plus millidegrees so that it never overflows; the observer
    only ever takes the difference of two angles and adds a delta to one,
    so here an angle is its total number of millidegrees. */
module Angle {

  datatype Angle = Angle(millidegrees: int)

  /** `a - b` in millidegrees. */
  function DiffMdeg(a: Angle, b: Angle): int {
    a.millidegrees - b.millidegrees
  }

  /** `angle` advanced by `delta` millidegrees. */
  function AddMdeg(angle: Angle, delta: int): (r: Angle)
    ensures DiffMdeg(r, angle) == delta
  {
    Angle(angle.millidegrees + delta)
  }
}

=== FILE: int_math.dfy ===
/** Integer primitives the observer is built on: the C integer widths it
    computes in, clamp/sign/abs, and C's truncating division.

    Dafny's `/` and `%` are Euclidean; C's `/` truncates toward zero, so
    every division of the observer goes through `Div` below. */
module IntMath {

  const INT32_MIN: int := -0x8000_0000
  const INT32_MAX: int := 0x7fff_ffff
  const UINT32_MODULUS: int := 0x1_0000_0000

  predicate IsInt32(x: int) {
    INT32_MIN <= x <= INT32_MAX
  }

  /** A C `uint32_t`, such as the millisecond wall time. */
  type uint32 = x: int | 0 <= x < UINT32_MODULUS

  /** `a - b` on two `uint32_t` values: the difference modulo 2^32. */
  function WrapSub(a: uint32, b: uint32): (r: uint32)
    ensures (r - (a - b)) % UINT32_MODULUS == 0
    ensures a >= b ==> r == a - b
    ensures a < b ==> r == a - b + UINT32_MODULUS
  {
    (a - b) % UINT32_MODULUS
  }

  function Abs(x: int): (r: int)
    ensures r >= 0 && (r == x || r == -x)
  {
    if x < 0 then -x else x
  }

  /** -1, 0 or 1 according to the sign of `x`. */
  function Sign(x: int): (r: int)
    ensures -1 <= r <= 1
    ensures r * Abs(x) == x
    ensures r == 0 <==> x == 0
  {
    if x > 0 then 1 else if x < 0 then -1 else 0
  }

  function Min(a: int, b: int): int {
    if a <= b then a else b
  }

  /** `value` bounded to the symmetric range [-absMax, absMax]. */
  function Clamp(value: int, absMax: int): (r: int)
    requires absMax >= 0
    ensures -absMax <= r <= absMax
    ensures -absMax <= value <= absMax ==> r == value
    ensures value > absMax ==> r == absMax
    ensures value < -absMax ==> r == -absMax
  {
    if value > absMax then absMax
    else if value < -absMax then -absMax
    else value
  }

  /** C's `a / b` on integers: the quotient truncated toward zero, so that
      the remainder `a - q * b` is smaller than `b` in magnitude and never
      has the opposite sign of `a`. */
  function Div(a: int, b: int): (q: int)
    requires b != 0
    ensures Abs(a - q * b) < Abs(b)
    ensures a - q * b == 0 || (a - q * b < 0) == (a < 0)
    ensures Abs(q) <= Abs(a)
    ensures Abs(q) * Abs(b) <= Abs(a)
  {
    DivSpec(a, b);
    if (a < 0) == (b < 0) then Abs(a) / Abs(b) else -(Abs(a) / Abs(b))
  }

  /** The contract of `Div` holds of its body. */
  lemma DivSpec(a: int, b: int)
    requires b != 0
    ensures
      var q := if (a < 0) == (b < 0) then Abs(a) / Abs(b) else -(Abs(a) / Abs(b));
      && Abs(a - q * b) < Abs(b)
      && (a - q * b == 0 || (a - q * b < 0) == (a < 0))
      && Abs(q) <= Abs(a)
      && Abs(q) * Abs(b) <= Abs(a)
  {
    var A, B := Abs(a), Abs(b);
    DivBounds(A, B);
    var q0 := A / B;
    var q := if (a < 0) == (b < 0) then q0 else -q0;
    TruncatedRemainder(a, b, A, B, q0, q);
  }

  /** The remainder left by the truncated quotient is the remainder of the
      magnitudes, carrying the sign of the dividend. */
  lemma TruncatedRemainder(a: int, b: int, A: int, B: int, q0: int, q: int)
    requires A == Abs(a) && B == Abs(b) && B > 0
    requires 0 <= q0 <= A && 0 <= A - q0 * B < B
    requires q == if (a < 0) == (b < 0) then q0 else -q0
    ensures Abs(a - q * b) < Abs(b)
    ensures a - q * b == 0 || (a - q * b < 0) == (a < 0)
    ensures Abs(q) <= Abs(a)
    ensures Abs(q) * Abs(b) <= Abs(a)
  {
    SignedProduct(q0, B, b, q, (a < 0) == (b < 0));
    var r := a - q * b;
    assert r == if a < 0 then -(A - q0 * B) else A - q0 * B;
    assert Abs(q) == q0;
    assert Abs(q) * Abs(b) == q0 * B;
  }

  /** `q * b` where `q` is `q0` or `-q0` and `b` is `B` or `-B`. */
  lemma SignedProduct(q0: int, B: int, b: int, q: int, same: bool)
    requires b == B || b == -B
    requires B >= 0 && (b < 0 ==> b == -B)
    requires q == if same then q0 else -q0
    ensures q * b == if same == (b >= 0) then q0 * B else -(q0 * B)
  {
    NegMul(q0, B);
    if b < 0 {
      NegMul(-q0, B);
    }
  }

  lemma NegMul(x: int, y: int)
    ensures (-x) * y == -(x * y) && x * (-y) == -(x * y)
  {
  }

  /** Floor division of naturals leaves a remainder below the divisor and a
      quotient no larger than the dividend. */
  lemma DivBounds(a: nat, b: nat)
    requires b > 0
    ensures 0 <= a / b <= a
    ensures 0 <= a - (a / b) * b < b
  {
    var q, r := a / b, a % b;
    assert a == q * b + r && 0 <= r < b;
    MulMonotone(q, 1, b);
  }

  lemma MulMonotone(x: nat, y: int, z: int)
    requires y <= z
    ensures x * y <= x * z
  {
  }

  /** Two quotients that meet the truncation contract coincide: `Div` is
      the only function with that contract. */
  lemma {:induction false} DivUnique(a: int, b: int, q: int)
    requires b != 0
    requires Abs(a - q * b) < Abs(b)
    requires a - q * b == 0 || (a - q * b < 0) == (a < 0)
    ensures q == Div(a, b)
  {
    var d := Div(a, b);
    var r1 := a - q * b;
    var r2 := a - d * b;
    if q != d {
      var k := q - d;
      assert r2 - r1 == k * b by {
        MulSubDistrib(q, d, b);
      }
      AbsProduct(k, b);
      assert false;
    }
  }

  lemma MulSubDistrib(x: int, y: int, z: int)
    ensures x * z - y * z == (x - y) * z
  {
  }

  lemma AbsProduct(x: int, y: int)
    requires x != 0
    ensures Abs(x * y) >= Abs(y)
  {
    if x > 0 && y >= 0 {
      assert x * y >= y;
    } else if x > 0 {
      assert x * y <= y;
    } else if y >= 0 {
      assert x * y <= -y;
    } else {
      assert x * y >= -y;
    }
  }

  /** Truncating division commutes with negating the dividend. */
  lemma DivNegate(a: int, b: int)
    requires b != 0
    ensures Div(-a, b) == -Div(a, b)
  {
  }

  /** Truncating division by a positive divisor is monotone in the dividend. */
  lemma DivMonotone(a1: int, a2: int, b: int)
    requires b > 0
    requires a1 <= a2
    ensures Div(a1, b) <= Div(a2, b)
  {
    DivByPositive(a1, b);
    DivByPositive(a2, b);
    if a1 >= 0 {
      FloorDivMonotone(a1, a2, b);
    } else if a2 < 0 {
      FloorDivMonotone(-a2, -a1, b);
    }
  }

  /** By a positive divisor, the truncated quotient is the floor quotient of
      the magnitude, with the dividend's sign. */
  lemma DivByPositive(a: int, b: int)
    requires b > 0
    ensures Div(a, b) == if a < 0 then -((-a) / b) else a / b
    ensures a < 0 ==> Div(a, b) <= 0
    ensures a >= 0 ==> Div(a, b) >= 0
  {
  }

  lemma FloorDivMonotone(a1: nat, a2: nat, b: nat)
    requires b > 0
    requires a1 <= a2
    ensures a1 / b <= a2 / b
  {
    var q1, q2 := a1 / b, a2 / b;
    DivBounds(a1, b);
    DivBounds(a2, b);
    if q1 > q2 {
      MulMonotone(b, q2 + 1, q1);
      assert false;
    }
  }

  /** Dividing an exact multiple gives back the factor. */
  lemma DivExact(k: int, b: int)
    requires b != 0
    ensures Div(k * b, b) == k
  {
    DivUnique(k * b, b, k);
  }

  /** Clamping commutes with negation, since the range is symmetric. */
  lemma ClampNegate(value: int, absMax: int)
    requires absMax >= 0
    ensures Clamp(-value, absMax) == -Clamp(value, absMax)
  {
  }

  /** Clamping is monotone. */
  lemma ClampMonotone(v1: int, v2: int, absMax: int)
    requires absMax >= 0
    requires v1 <= v2
    ensures Clamp(v1, absMax) <= Clamp(v2, absMax)
  {
  }

  /** A value times a factor bounded in magnitude by `max` is bounded by
      the factor times `max`. */
  lemma ScaledBound(factor: nat, x: int, max: int)
    requires Abs(x) <= max
    ensures Abs(factor * x) <= factor * max
  {
    if x >= 0 {
      assert factor * x <= factor * max;
    } else {
      assert factor * (-x) <= factor * max;
      assert factor * x == -(factor * (-x));
    }
  }
}

=== FILE: observer.dfy ===
/** The motor state observer: a discrete-time linear model of a DC motor
    in scaled integer arithmetic that predicts angle, speed and current each
    control tick, corrects itself with the measured angle, and flags a stall
    when the correction it needs points to an unmodelled load.

    Units: angle in millidegrees, speed in millidegrees per second, current
    in milliamps, voltage in millivolts, torque in micronewton-metres, time
    in milliseconds. */
module Observer {
  import opened IntMath
  import opened Angle

  /** Largest magnitudes the model works with, and the factors that scale
      each state or input before it is divided by a model coefficient. */
  const MAX_NUM_SPEED: int := 2500000
  const MAX_NUM_ACCELERATION: int := 25000000
  const MAX_NUM_CURRENT: int := 30000
  const MAX_NUM_VOLTAGE: int := 12000
  const MAX_NUM_TORQUE: int := 1000000
  const PRESCALE_SPEED: int := 858
  const PRESCALE_ACCELERATION: int := 85
  const PRESCALE_CURRENT: int := 71582
  const PRESCALE_VOLTAGE: int := 178956
  const PRESCALE_TORQUE: int := 2147

  /** Coefficients of a motor type. Each `dXdY` is the divisor that turns a
      prescaled `Y` into its contribution to `X`: the first three rows form
      the state update x(k+1) = A x(k) + B u(k), the rest serve the
      stateless conversions. */
  datatype ObserverModel = ObserverModel(
    dAngleDSpeed: int, dAngleDCurrent: int, dAngleDVoltage: int, dAngleDTorque: int,
    dSpeedDSpeed: int, dSpeedDCurrent: int, dSpeedDVoltage: int, dSpeedDTorque: int,
    dCurrentDSpeed: int, dCurrentDCurrent: int, dCurrentDVoltage: int, dCurrentDTorque: int,
    dVoltageDTorque: int,
    dTorqueDVoltage: int, dTorqueDSpeed: int, dTorqueDAcceleration: int,
    torqueFriction: int)

  /** Tuning of the stall detector, the friction model and the feedback gain. */
  datatype ObserverSettings = ObserverSettings(
    stallSpeedLimit: int,
    stallTime: uint32,
    feedbackVoltageStallRatio: int,
    feedbackVoltageNegligible: int,
    coulombFrictionSpeedCutoff: int,
    feedbackGainLow: int,
    feedbackGainHigh: int,
    feedbackGainThreshold: int)

  /** How the motor is driven this tick. Only voltage actuation matches the
      model; the observer treats every other kind alike. */
  datatype Actuation = Coast | Brake | Voltage | Torque

  /** One observer instance: the model and settings it was set up with, the
      estimated state, the differentiator's last speed sample and the stall
      detector's state. The numeric differentiator's own state is not part
      of this model; its output arrives as a parameter of `Update`. */
  datatype Observer = Observer(
    model: ObserverModel,
    settings: ObserverSettings,
    angle: Angle,
    speed: int,
    current: int,
    speedNumeric: int,
    stalled: bool,
    stallStart: uint32)

  /** The divisors of the state update are nonzero. */
  predicate StepCoefficientsNonzero(m: ObserverModel) {
    && m.dAngleDSpeed != 0 && m.dAngleDCurrent != 0 && m.dAngleDVoltage != 0 && m.dAngleDTorque != 0
    && m.dSpeedDSpeed != 0 && m.dSpeedDCurrent != 0 && m.dSpeedDVoltage != 0 && m.dSpeedDTorque != 0
    && m.dCurrentDSpeed != 0 && m.dCurrentDCurrent != 0 && m.dCurrentDVoltage != 0 && m.dCurrentDTorque != 0
  }

  /** What `Update` divides by: the state-update coefficients and the
      friction ramp's speed cutoff. */
  predicate CanUpdate(obs: Observer) {
    StepCoefficientsNonzero(obs.model) && obs.settings.coulombFrictionSpeedCutoff != 0
  }

  /*-------------------------------------------------------------------------
   * Reset and read-out
   *-----------------------------------------------------------------------*/

  /** Restarts the estimate at `angle` at rest and clears the stall flag.
      The stall start time, the model, the settings and the last numeric
      speed sample are kept. */
  function Reset(obs: Observer, angle: Angle): (r: Observer)
    ensures r.angle == angle && r.speed == 0 && r.current == 0 && !r.stalled
    ensures r.stallStart == obs.stallStart && r.speedNumeric == obs.speedNumeric
    ensures r.model == obs.model && r.settings == obs.settings
  {
    obs.(angle := angle, speed := 0, current := 0, stalled := false)
  }

  /** What the observer reports of its state. */
  datatype EstimatedState = EstimatedState(speedNumeric: int, angle: Angle, speed: int)

  /** Reads the estimate without changing the observer. */
  function GetEstimatedState(obs: Observer): (r: EstimatedState)
    ensures r.angle == obs.angle && r.speed == obs.speed && r.speedNumeric == obs.speedNumeric
  {
    EstimatedState(obs.speedNumeric, obs.angle, obs.speed)
  }

  /*-------------------------------------------------------------------------
   * Stall detector
   *-----------------------------------------------------------------------*/

  /** The stall conditions, written out separately for each drive
      direction: the motor is slow or moving against the drive, the model
      runs ahead of the measurement, the feedback is a large enough share of
      the drive, and the drive is not negligible. */
  predicate StallConditions(s: ObserverSettings, speed: int, voltage: int, feedback: int) {
    if voltage >= 0 then
      && speed < s.stallSpeedLimit
      && feedback < 0
      && -feedback * 100 > voltage * s.feedbackVoltageStallRatio
      && voltage > s.feedbackVoltageNegligible
    else
      && speed > -s.stallSpeedLimit
      && feedback > 0
      && feedback * 100 > -voltage * s.feedbackVoltageStallRatio
      && -voltage > s.feedbackVoltageNegligible
  }

  /** One step of the stall detector. The conditions are checked after
      turning the drive direction forward; the start time is taken only
      when the flag rises, and nothing else about the observer changes. */
  function UpdateStallState(obs: Observer, time: uint32, actuation: Actuation, voltage: int, feedback: int): (r: Observer)
    ensures r.stalled <==> actuation == Voltage && StallConditions(obs.settings, obs.speed, voltage, feedback)
    ensures r.stallStart == if r.stalled && !obs.stalled then time else obs.stallStart
    ensures r == obs.(stalled := r.stalled, stallStart := r.stallStart)
  {
    if actuation != Voltage then
      obs.(stalled := false)
    else
      var reversed := voltage < 0;
      var speed := if reversed then -obs.speed else obs.speed;
      var v := if reversed then -voltage else voltage;
      var fb := if reversed then -feedback else feedback;
      if && speed < obs.settings.stallSpeedLimit
         && fb < 0
         && -fb * 100 > v * obs.settings.feedbackVoltageStallRatio
         && v > obs.settings.feedbackVoltageNegligible
      then
        obs.(stalled := true, stallStart := if !obs.stalled then time else obs.stallStart)
      else
        obs.(stalled := false)
  }

  /** The stall report: stalled for longer than the settings allow, and for
      how long. */
  datatype StallReport = StallReport(stalled: bool, duration: uint32)

  /** The duration gate on top of the stall flag. Time is a `uint32_t`
      millisecond counter, so the elapsed time is taken modulo 2^32. */
  function IsStalled(obs: Observer, time: uint32): (r: StallReport)
    ensures r.stalled ==> obs.stalled && r.duration > obs.settings.stallTime
    ensures r.stalled ==> (r.duration - (time - obs.stallStart)) % UINT32_MODULUS == 0
    ensures !r.stalled ==> r.duration == 0
    ensures obs.stalled && WrapSub(time, obs.stallStart) > obs.settings.stallTime ==> r.stalled
  {
    if obs.stalled && WrapSub(time, obs.stallStart) > obs.settings.stallTime then
      StallReport(true, WrapSub(time, obs.stallStart))
    else
      StallReport(false, 0)
  }

  /*-------------------------------------------------------------------------
   * Feedback gain
   *-----------------------------------------------------------------------*/

  /** Feedback voltage for an absolute angle error: the low gain up to the
      threshold, and above it the threshold's share plus the excess error at
      the high gain, in millivolts per 1000 millidegrees. */
  function FeedbackVoltageAbs(error: int, s: ObserverSettings): (r: int)
    ensures 0 <= error && NonnegativeGains(s) ==> r >= 0
  {
    GainNumeratorNonnegative(error, s);
    Div(GainNumerator(error, s), 1000)
  }

  /** The gain curve before the division by 1000. */
  function GainNumerator(error: int, s: ObserverSettings): int {
    if error <= s.feedbackGainThreshold then error * s.feedbackGainLow
    else s.feedbackGainThreshold * s.feedbackGainLow + (error - s.feedbackGainThreshold) * s.feedbackGainHigh
  }

  /** For a nonnegative error, knee and gains, the numerator of the gain
      curve is nonnegative. */
  lemma GainNumeratorNonnegative(error: int, s: ObserverSettings)
    ensures 0 <= error && NonnegativeGains(s) ==> GainNumerator(error, s) >= 0
  {
    if 0 <= error && NonnegativeGains(s) {
      if error <= s.feedbackGainThreshold {
        MulMonotone(s.feedbackGainLow, 0, error);
      } else {
        MulMonotone(s.feedbackGainLow, 0, s.feedbackGainThreshold);
        MulMonotone(s.feedbackGainHigh, 0, error - s.feedbackGainThreshold);
      }
    }
  }

  /** The gains are all nonnegative and so is the knee. */
  predicate NonnegativeGains(s: ObserverSettings) {
    0 <= s.feedbackGainThreshold && 0 <= s.feedbackGainLow && 0 <= s.feedbackGainHigh
  }

  /** Feedback voltage that pulls the estimate toward the measured angle:
      the magnitude depends only on the size of the error and is capped at
      the maximum voltage, and the sign follows the error. */
  function FeedbackVoltage(obs: Observer, measured: Angle): (r: int)
    ensures -MAX_NUM_VOLTAGE <= r <= MAX_NUM_VOLTAGE
    ensures DiffMdeg(measured, obs.angle) == 0 ==> r == 0
    ensures NonnegativeGains(obs.settings) ==>
              Abs(r) == Min(FeedbackVoltageAbs(Abs(DiffMdeg(measured, obs.angle)), obs.settings), MAX_NUM_VOLTAGE)
              && Sign(r) * Sign(DiffMdeg(measured, obs.angle)) >= 0
  {
    var error := DiffMdeg(measured, obs.angle);
    var magnitude := FeedbackVoltageAbs(Abs(error), obs.settings);
    Clamp(magnitude * Sign(error), MAX_NUM_VOLTAGE)
  }

  /*-------------------------------------------------------------------------
   * Prediction and correction
   *-----------------------------------------------------------------------*/

  /** The voltage that drives the model: the applied voltage plus the
      feedback, saturated at the maximum voltage. */
  function ModelVoltage(voltage: int, feedback: int): (r: int)
    ensures -MAX_NUM_VOLTAGE <= r <= MAX_NUM_VOLTAGE
    ensures -MAX_NUM_VOLTAGE <= voltage + feedback <= MAX_NUM_VOLTAGE ==> r == voltage + feedback
    ensures voltage + feedback > MAX_NUM_VOLTAGE ==> r == MAX_NUM_VOLTAGE
    ensures voltage + feedback < -MAX_NUM_VOLTAGE ==> r == -MAX_NUM_VOLTAGE
  {
    Clamp(voltage + feedback, MAX_NUM_VOLTAGE)
  }

  /** Coulomb friction torque: the full friction torque with the sign of
      the speed once the speed exceeds the cutoff, and a linear ramp through
      zero below it. */
  function CoulombFriction(speed: int, torqueFriction: int, cutoff: int): (r: int)
    requires cutoff != 0
    ensures speed == 0 ==> r == 0
    ensures Abs(r) <= Abs(torqueFriction)
    ensures torqueFriction >= 0 ==> (speed > 0 ==> r >= 0) && (speed < 0 ==> r <= 0)
    ensures Abs(speed) > cutoff ==> r == Sign(speed) * torqueFriction
  {
    var magnitude :=
      if Abs(speed) > cutoff then torqueFriction
      else Div(Abs(speed) * torqueFriction, cutoff);
    FrictionRampBounded(speed, torqueFriction, cutoff);
    Sign(speed) * magnitude
  }

  /** Below the cutoff the ramp stays between zero and the friction torque. */
  lemma FrictionRampBounded(speed: int, torqueFriction: int, cutoff: int)
    requires cutoff != 0
    ensures Abs(speed) <= cutoff ==>
              Abs(Div(Abs(speed) * torqueFriction, cutoff)) <= Abs(torqueFriction)
              && (torqueFriction >= 0 ==> Div(Abs(speed) * torqueFriction, cutoff) >= 0)
  {
    if Abs(speed) <= cutoff {
      var n := Abs(speed) * torqueFriction;
      ScaledBound(Abs(speed), torqueFriction, Abs(torqueFriction));
      MulMonotone(Abs(torqueFriction), Abs(speed), cutoff);
      assert Abs(n) <= Abs(torqueFriction) * cutoff;
      DivMonotone(n, Abs(torqueFriction) * cutoff, cutoff);
      DivMonotone(-Abs(torqueFriction) * cutoff, n, cutoff);
      DivExact(Abs(torqueFriction), cutoff);
      DivExact(-Abs(torqueFriction), cutoff);
      if torqueFriction >= 0 {
        MulMonotone(Abs(speed), 0, torqueFriction);
        DivMonotone(0, n, cutoff);
        DivExact(0, cutoff);
      }
    }
  }

  /** One row of x(k+1) = A x(k) + B u(k): each prescaled state or input is
      divided by its own coefficient, truncating, and the parts are summed. */
  function LinearStep(kSpeed: int, kCurrent: int, kVoltage: int, kTorque: int,
                      speed: int, current: int, voltage: int, torque: int): int
    requires kSpeed != 0 && kCurrent != 0 && kVoltage != 0 && kTorque != 0
  {
    Div(PRESCALE_SPEED * speed, kSpeed)
    + Div(PRESCALE_CURRENT * current, kCurrent)
    + Div(PRESCALE_VOLTAGE * voltage, kVoltage)
    + Div(PRESCALE_TORQUE * torque, kTorque)
  }

  function AngleDelta(m: ObserverModel, speed: int, current: int, voltage: int, torque: int): int
    requires StepCoefficientsNonzero(m)
  {
    LinearStep(m.dAngleDSpeed, m.dAngleDCurrent, m.dAngleDVoltage, m.dAngleDTorque, speed, current, voltage, torque)
  }

  function SpeedPrediction(m: ObserverModel, speed: int, current: int, voltage: int, torque: int): int
    requires StepCoefficientsNonzero(m)
  {
    LinearStep(m.dSpeedDSpeed, m.dSpeedDCurrent, m.dSpeedDVoltage, m.dSpeedDTorque, speed, current, voltage, torque)
  }

  function CurrentPrediction(m: ObserverModel, speed: int, current: int, voltage: int, torque: int): int
    requires StepCoefficientsNonzero(m)
  {
    LinearStep(m.dCurrentDSpeed, m.dCurrentDCurrent, m.dCurrentDVoltage, m.dCurrentDTorque, speed, current, voltage, torque)
  }

  /** The friction term's own contribution to the predicted speed. */
  function FrictionSpeedKick(m: ObserverModel, friction: int): int
    requires m.dSpeedDTorque != 0
  {
    Div(PRESCALE_TORQUE * friction, m.dSpeedDTorque)
  }

  /** The speed the observer commits after the prediction: if the clamped
      prediction `next` lies on the other side of zero than `speed`, the
      friction kick is taken back out. */
  function AntiChatter(speed: int, next: int, kick: int): int {
    if (speed < 0) != (next < 0) then next - kick else next
  }

  /** One control tick: record the numeric speed sample, compute the
      feedback from the measured angle, step the stall detector, then
      advance angle, speed and current from the pre-tick speed and current
      under the clamped model voltage and the Coulomb friction. */
  function Update(obs: Observer, time: uint32, measured: Angle, actuation: Actuation,
                  voltage: int, speedNumeric: int): (r: Observer)
    requires CanUpdate(obs)
    ensures r.model == obs.model && r.settings == obs.settings && r.speedNumeric == speedNumeric
    ensures r.stalled <==>
              (actuation == Voltage && StallConditions(obs.settings, obs.speed, voltage, FeedbackVoltage(obs, measured)))
    ensures r.stallStart == if r.stalled && !obs.stalled then time else obs.stallStart
    ensures -MAX_NUM_CURRENT <= r.current <= MAX_NUM_CURRENT
    ensures
      var mv := ModelVoltage(voltage, FeedbackVoltage(obs, measured));
      var friction := CoulombFriction(obs.speed, obs.model.torqueFriction, obs.settings.coulombFrictionSpeedCutoff);
      var next := Clamp(SpeedPrediction(obs.model, obs.speed, obs.current, mv, friction), MAX_NUM_SPEED);
      && DiffMdeg(r.angle, obs.angle) == AngleDelta(obs.model, obs.speed, obs.current, mv, friction)
      && r.current == Clamp(CurrentPrediction(obs.model, obs.speed, obs.current, mv, friction), MAX_NUM_CURRENT)
      && (r.speed != next ==> (obs.speed < 0) != (next < 0))
      && ((obs.speed < 0) != (next < 0) ==> r.speed == next - FrictionSpeedKick(obs.model, friction))
      && ((obs.speed < 0) == (next < 0) ==> -MAX_NUM_SPEED <= r.speed <= MAX_NUM_SPEED)
  {
    var m := obs.model;
    var withSample := obs.(speedNumeric := speedNumeric);
    var feedback := FeedbackVoltage(withSample, measured);
    var afterStall := UpdateStallState(withSample, time, actuation, voltage, feedback);
    var modelVoltage := ModelVoltage(voltage, feedback);
    var friction := CoulombFriction(obs.speed, m.torqueFriction, obs.settings.coulombFrictionSpeedCutoff);
    var torque := friction;
    var angle := AddMdeg(obs.angle, AngleDelta(m, obs.speed, obs.current, modelVoltage, torque));
    var speedNext := Clamp(SpeedPrediction(m, obs.speed, obs.current, modelVoltage, torque), MAX_NUM_SPEED);
    var currentNext := Clamp(CurrentPrediction(m, obs.speed, obs.current, modelVoltage, torque), MAX_NUM_CURRENT);
    afterStall.(angle := angle,
                speed := AntiChatter(obs.speed, speedNext, FrictionSpeedKick(m, friction)),
                current := currentNext)
  }

  /*-------------------------------------------------------------------------
   * Stateless conversions
   *-----------------------------------------------------------------------*/

  /** The torque ceiling offered to input validators. */
  function GetMaxTorque(): (r: int)
    ensures r == MAX_NUM_TORQUE
  {
    MAX_NUM_TORQUE
  }

  /** Open-loop torque for a reference speed and acceleration: half the
      friction torque in the direction of motion, plus back-EMF and
      acceleration torque from the clamped references, saturated at the
      maximum torque. */
  function FeedforwardTorque(m: ObserverModel, rateRef: int, accelerationRef: int): (r: int)
    requires m.dTorqueDSpeed != 0 && m.dTorqueDAcceleration != 0
    ensures -GetMaxTorque() <= r <= GetMaxTorque()
  {
    var frictionCompensation := Div(m.torqueFriction, 2) * Sign(rateRef);
    var backEmfCompensation := Div(PRESCALE_SPEED * Clamp(rateRef, MAX_NUM_SPEED), m.dTorqueDSpeed);
    var accelerationTorque := Div(PRESCALE_ACCELERATION * Clamp(accelerationRef, MAX_NUM_ACCELERATION), m.dTorqueDAcceleration);
    Clamp(frictionCompensation + backEmfCompensation + accelerationTorque, MAX_NUM_TORQUE)
  }

  /** Voltage for a torque: the torque clamped to the maximum torque,
      prescaled and divided by the coefficient, truncating; the remainder is
      below the coefficient and carries the sign of the dividend. The
      prescaled torque fits in 32 bits, so the result does too, and its size
      is bounded by what the coefficient implies. */
  function TorqueToVoltage(m: ObserverModel, torque: int): (r: int)
    requires m.dVoltageDTorque != 0
    ensures IsInt32(PRESCALE_TORQUE * Clamp(torque, MAX_NUM_TORQUE)) && IsInt32(r)
    ensures Abs(r) * Abs(m.dVoltageDTorque) <= PRESCALE_TORQUE * MAX_NUM_TORQUE
    ensures var n := PRESCALE_TORQUE * Clamp(torque, MAX_NUM_TORQUE);
            Abs(n - r * m.dVoltageDTorque) < Abs(m.dVoltageDTorque)
            && (n - r * m.dVoltageDTorque == 0 || (n - r * m.dVoltageDTorque < 0) == (n < 0))
  {
    var clamped := Clamp(torque, MAX_NUM_TORQUE);
    ScaledBound(PRESCALE_TORQUE, clamped, MAX_NUM_TORQUE);
    Div(PRESCALE_TORQUE * clamped, m.dVoltageDTorque)
  }

  /** Torque for a voltage, the voltage first clamped to the maximum
      voltage; the same guarantees as `TorqueToVoltage`. */
  function VoltageToTorque(m: ObserverModel, voltage: int): (r: int)
    requires m.dTorqueDVoltage != 0
    ensures IsInt32(PRESCALE_VOLTAGE * Clamp(voltage, MAX_NUM_VOLTAGE)) && IsInt32(r)
    ensures Abs(r) * Abs(m.dTorqueDVoltage) <= PRESCALE_VOLTAGE * MAX_NUM_VOLTAGE
    ensures var n := PRESCALE_VOLTAGE * Clamp(voltage, MAX_NUM_VOLTAGE);
            Abs(n - r * m.dTorqueDVoltage) < Abs(m.dTorqueDVoltage)
            && (n - r * m.dTorqueDVoltage == 0 || (n - r * m.dTorqueDVoltage < 0) == (n < 0))
  {
    var clamped := Clamp(voltage, MAX_NUM_VOLTAGE);
    ScaledBound(PRESCALE_VOLTAGE, clamped, MAX_NUM_VOLTAGE);
    Div(PRESCALE_VOLTAGE * clamped, m.dTorqueDVoltage)
  }
}

=== FILE: observer_properties.dfy ===
/** Properties of the observer that relate several calls, or a call to an
    independent description of what it should do. */
module ObserverProperties {
  import opened IntMath
  import opened Angle
  import opened Observer

  /*-------------------------------------------------------------------------
   * Reset and read-out
   *-----------------------------------------------------------------------*/

  /** Right after a reset the observer reports the reset angle at rest, and
      the stall report is negative whatever the time. */
  lemma ResetThenObserve(obs: Observer, angle: Angle, time: uint32)
    ensures GetEstimatedState(Reset(obs, angle)) == EstimatedState(obs.speedNumeric, angle, 0)
    ensures IsStalled(Reset(obs, angle), time) == StallReport(false, 0)
  {
  }

  /*-------------------------------------------------------------------------
   * Stall detector
   *-----------------------------------------------------------------------*/

  /** The stall test does not depend on the drive direction: mirroring
      speed, drive and feedback together gives the same verdict, provided
      the negligible-voltage threshold is not negative (so that a zero drive
      never counts). */
  lemma StallConditionsMirror(s: ObserverSettings, speed: int, voltage: int, feedback: int)
    requires s.feedbackVoltageNegligible >= 0
    ensures StallConditions(s, speed, voltage, feedback) == StallConditions(s, -speed, -voltage, -feedback)
  {
    if voltage > 0 {
      assert -(-voltage) * s.feedbackVoltageStallRatio == voltage * s.feedbackVoltageStallRatio;
    } else if voltage < 0 {
      assert -voltage * s.feedbackVoltageStallRatio == (-voltage) * s.feedbackVoltageStallRatio;
    }
  }

  /** Any actuation other than voltage clears the stall flag, and then no
      stall is reported. */
  lemma NonVoltageActuationNeverStalls(obs: Observer, time: uint32, measured: Angle, actuation: Actuation,
                                       voltage: int, speedNumeric: int, later: uint32)
    requires CanUpdate(obs)
    requires actuation != Voltage
    ensures !Update(obs, time, measured, actuation, voltage, speedNumeric).stalled
    ensures IsStalled(Update(obs, time, measured, actuation, voltage, speedNumeric), later) == StallReport(false, 0)
  {
  }

  /** The inputs of one tick of the stall detector. */
  datatype StallInput = StallInput(time: uint32, actuation: Actuation, voltage: int, feedback: int)

  /** The stall detector run over a sequence of ticks. */
  function RunStallDetector(obs: Observer, inputs: seq<StallInput>): Observer
    decreases |inputs|
  {
    if |inputs| == 0 then obs
    else
      var i := inputs[0];
      RunStallDetector(UpdateStallState(obs, i.time, i.actuation, i.voltage, i.feedback), inputs[1..])
  }

  /** While the stall flag stays up over a run of ticks, the start time of
      the stall stays the one recorded when it rose; the detector only
      ever touches the stall flag and the start time. */
  lemma {:induction false} StallStartKeptWhileStalled(obs: Observer, inputs: seq<StallInput>)
    requires obs.stalled
    requires forall k :: 0 <= k <= |inputs| ==> RunStallDetector(obs, inputs[..k]).stalled
    ensures RunStallDetector(obs, inputs) == obs
    decreases |inputs|
  {
    if |inputs| > 0 {
      var i := inputs[0];
      var next := UpdateStallState(obs, i.time, i.actuation, i.voltage, i.feedback);
      assert inputs[..1] == [i];
      assert RunStallDetector(obs, inputs[..1]) == RunStallDetector(next, []);
      assert next.stalled;
      assert next == obs;
      forall k | 0 <= k <= |inputs[1..]|
        ensures RunStallDetector(next, inputs[1..][..k]).stalled
      {
        assert inputs[..k + 1][0] == i;
        assert inputs[..k + 1][1..] == inputs[1..][..k];
        assert RunStallDetector(obs, inputs[..k + 1]).stalled;
      }
      StallStartKeptWhileStalled(next, inputs[1..]);
    }
  }

  /** The duration gate reads elapsed time modulo 2^32: `elapsed`
      milliseconds after the stall began (fewer than 2^32), a stall is
      reported exactly when `elapsed` exceeds the stall time, with
      `elapsed` as its duration, even when the clock wrapped around in
      between. */
  lemma IsStalledAfterElapsed(obs: Observer, elapsed: int)
    requires obs.stalled
    requires 0 <= elapsed < UINT32_MODULUS
    ensures
      var time := (obs.stallStart + elapsed) % UINT32_MODULUS;
      IsStalled(obs, time) == if elapsed > obs.settings.stallTime then StallReport(true, elapsed) else StallReport(false, 0)
  {
    var time := (obs.stallStart + elapsed) % UINT32_MODULUS;
    if obs.stallStart + elapsed < UINT32_MODULUS {
      assert time == obs.stallStart + elapsed;
    } else {
      assert time == obs.stallStart + elapsed - UINT32_MODULUS;
    }
    assert WrapSub(time, obs.stallStart) == elapsed;
  }

  /*-------------------------------------------------------------------------
   * Feedback gain
   *-----------------------------------------------------------------------*/

  /** The two regions of the gain curve meet at the knee without a jump:
      one millidegree past the threshold, where the high gain takes over,
      the feedback grows by at most one step of the high gain. */
  lemma FeedbackGainContinuousAtKnee(s: ObserverSettings)
    requires NonnegativeGains(s)
    ensures
      var t := s.feedbackGainThreshold;
      0 <= FeedbackVoltageAbs(t + 1, s) - FeedbackVoltageAbs(t, s) <= s.feedbackGainHigh / 1000 + 1
  {
    var t := s.feedbackGainThreshold;
    MulMonotone(s.feedbackGainLow, 0, t);
    assert (t + 1 - t) * s.feedbackGainHigh == s.feedbackGainHigh;
    DivByPositive(t * s.feedbackGainLow, 1000);
    DivByPositive(t * s.feedbackGainLow + s.feedbackGainHigh, 1000);
  }

  /** With nonnegative gains the feedback voltage never decreases as the
      error grows. */
  lemma FeedbackVoltageAbsMonotone(s: ObserverSettings, e1: int, e2: int)
    requires 0 <= s.feedbackGainLow && 0 <= s.feedbackGainHigh
    requires e1 <= e2
    ensures FeedbackVoltageAbs(e1, s) <= FeedbackVoltageAbs(e2, s)
  {
    var t := s.feedbackGainThreshold;
    if e2 <= t {
      MulMonotone(s.feedbackGainLow, e1, e2);
      assert e1 * s.feedbackGainLow <= e2 * s.feedbackGainLow;
      DivMonotone(e1 * s.feedbackGainLow, e2 * s.feedbackGainLow, 1000);
    } else if e1 <= t {
      var n2 := t * s.feedbackGainLow + (e2 - t) * s.feedbackGainHigh;
      MulMonotone(s.feedbackGainLow, e1, t);
      MulMonotone(s.feedbackGainHigh, 0, e2 - t);
      assert e1 * s.feedbackGainLow <= t * s.feedbackGainLow <= n2;
      DivMonotone(e1 * s.feedbackGainLow, n2, 1000);
    } else {
      var n1 := t * s.feedbackGainLow + (e1 - t) * s.feedbackGainHigh;
      var n2 := t * s.feedbackGainLow + (e2 - t) * s.feedbackGainHigh;
      MulMonotone(s.feedbackGainHigh, e1 - t, e2 - t);
      assert n1 <= n2;
      DivMonotone(n1, n2, 1000);
    }
  }

  /** Above the knee, a high gain at least the low gain gives at least the
      feedback the low gain alone would. */
  lemma FeedbackGainSteeperAboveKnee(s: ObserverSettings, error: int)
    requires s.feedbackGainLow <= s.feedbackGainHigh
    requires s.feedbackGainThreshold < error
    ensures FeedbackVoltageAbs(error, s) >= Div(error * s.feedbackGainLow, 1000)
  {
    var t := s.feedbackGainThreshold;
    MulMonotone(error - t, s.feedbackGainLow, s.feedbackGainHigh);
    assert (error - t) * s.feedbackGainLow <= (error - t) * s.feedbackGainHigh;
    assert t * s.feedbackGainLow + (error - t) * s.feedbackGainLow == error * s.feedbackGainLow;
    DivMonotone(error * s.feedbackGainLow, GainNumerator(error, s), 1000);
  }

  /** Swapping the estimate and the measurement negates the feedback. */
  lemma FeedbackVoltageAntisymmetric(obs: Observer, a: Angle, b: Angle)
    ensures FeedbackVoltage(obs.(angle := a), b) == -FeedbackVoltage(obs.(angle := b), a)
  {
    var e := DiffMdeg(b, a);
    assert DiffMdeg(a, b) == -e;
    var m := FeedbackVoltageAbs(Abs(e), obs.settings);
    assert m * Sign(-e) == -(m * Sign(e));
    ClampNegate(m * Sign(e), MAX_NUM_VOLTAGE);
  }

  /*-------------------------------------------------------------------------
   * Coulomb friction and the state update
   *-----------------------------------------------------------------------*/

  /** Friction is an odd function of speed. */
  lemma CoulombFrictionOdd(speed: int, torqueFriction: int, cutoff: int)
    requires cutoff != 0
    ensures CoulombFriction(-speed, torqueFriction, cutoff) == -CoulombFriction(speed, torqueFriction, cutoff)
  {
  }

  /** The ramp reaches the full friction torque exactly at the cutoff, so
      the friction curve has no jump there. */
  lemma CoulombFrictionContinuousAtCutoff(torqueFriction: int, cutoff: int)
    requires cutoff > 0
    ensures CoulombFriction(cutoff, torqueFriction, cutoff) == torqueFriction
    ensures CoulombFriction(cutoff + 1, torqueFriction, cutoff) == torqueFriction
  {
    DivExact(torqueFriction, cutoff);
    assert cutoff * torqueFriction == torqueFriction * cutoff;
  }

  /** Below the cutoff friction is the linear ramp `speed * torqueFriction /
      cutoff` through the origin, up to truncation: the friction times the
      cutoff misses the exact product by less than the cutoff. */
  lemma CoulombFrictionRamp(speed: int, torqueFriction: int, cutoff: int)
    requires cutoff > 0 && Abs(speed) <= cutoff
    ensures Abs(CoulombFriction(speed, torqueFriction, cutoff) * cutoff - speed * torqueFriction) < cutoff
  {
    if speed < 0 {
      RampForward(-speed, torqueFriction, cutoff);
      CoulombFrictionOdd(speed, torqueFriction, cutoff);
      var f := CoulombFriction(-speed, torqueFriction, cutoff);
      NegMul(f, cutoff);
      NegMul(speed, torqueFriction);
      assert CoulombFriction(speed, torqueFriction, cutoff) * cutoff - speed * torqueFriction
             == -(f * cutoff - (-speed) * torqueFriction);
    } else {
      RampForward(speed, torqueFriction, cutoff);
    }
  }

  /** `CoulombFrictionRamp` for a nonnegative speed. */
  lemma RampForward(speed: nat, torqueFriction: int, cutoff: int)
    requires cutoff > 0 && speed <= cutoff
    ensures Abs(CoulombFriction(speed, torqueFriction, cutoff) * cutoff - speed * torqueFriction) < cutoff
  {
    var n := speed * torqueFriction;
    var q := Div(n, cutoff);
    if speed == 0 {
      assert CoulombFriction(speed, torqueFriction, cutoff) == 0;
    } else {
      assert CoulombFriction(speed, torqueFriction, cutoff) == q;
    }
  }

  /** With a nonnegative friction torque and a positive cutoff, friction
      never decreases as the speed grows. */
  lemma CoulombFrictionMonotone(s1: int, s2: int, torqueFriction: int, cutoff: int)
    requires torqueFriction >= 0 && cutoff > 0
    requires s1 <= s2
    ensures CoulombFriction(s1, torqueFriction, cutoff) <= CoulombFriction(s2, torqueFriction, cutoff)
  {
    if 0 <= s1 {
      RampMonotone(s1, s2, torqueFriction, cutoff);
    } else if s2 <= 0 {
      RampMonotone(-s2, -s1, torqueFriction, cutoff);
      CoulombFrictionOdd(s1, torqueFriction, cutoff);
      CoulombFrictionOdd(s2, torqueFriction, cutoff);
    } else {
      assert CoulombFriction(s1, torqueFriction, cutoff) <= 0 <= CoulombFriction(s2, torqueFriction, cutoff);
    }
  }

  /** For nonnegative speeds the friction curve is monotone. */
  lemma RampMonotone(s1: int, s2: int, torqueFriction: int, cutoff: int)
    requires torqueFriction >= 0 && cutoff > 0
    requires 0 <= s1 <= s2
    ensures CoulombFriction(s1, torqueFriction, cutoff) <= CoulombFriction(s2, torqueFriction, cutoff)
  {
    if s2 <= cutoff {
      MulMonotone(torqueFriction, s1, s2);
      assert s1 * torqueFriction <= s2 * torqueFriction;
      DivMonotone(s1 * torqueFriction, s2 * torqueFriction, cutoff);
      if s1 == 0 {
        DivExact(0, cutoff);
      }
    } else if s1 <= cutoff {
      MulMonotone(torqueFriction, s1, cutoff);
      assert s1 * torqueFriction <= torqueFriction * cutoff;
      DivMonotone(s1 * torqueFriction, torqueFriction * cutoff, cutoff);
      DivExact(torqueFriction, cutoff);
      if s1 == 0 {
        DivExact(0, cutoff);
      }
    }
  }

  /** A state-update row with zero torque drops exactly the torque term. */
  lemma LinearStepWithoutTorque(kSpeed: int, kCurrent: int, kVoltage: int, kTorque: int,
                                speed: int, current: int, voltage: int, torque: int)
    requires kSpeed != 0 && kCurrent != 0 && kVoltage != 0 && kTorque != 0
    ensures LinearStep(kSpeed, kCurrent, kVoltage, kTorque, speed, current, voltage, torque)
            == LinearStep(kSpeed, kCurrent, kVoltage, kTorque, speed, current, voltage, 0)
               + Div(PRESCALE_TORQUE * torque, kTorque)
  {
    DivExact(0, kTorque);
  }

  /** When the predicted speed crosses zero without hitting the speed limit,
      the committed speed is the prediction without the friction term: the
      anti-chatter step takes back exactly friction's contribution. When
      the old speed is zero there is no friction and nothing is taken back. */
  lemma AntiChatterRemovesFriction(obs: Observer, time: uint32, measured: Angle, actuation: Actuation,
                                   voltage: int, speedNumeric: int)
    requires CanUpdate(obs)
    ensures
      var m := obs.model;
      var mv := ModelVoltage(voltage, FeedbackVoltage(obs, measured));
      var friction := CoulombFriction(obs.speed, m.torqueFriction, obs.settings.coulombFrictionSpeedCutoff);
      var prediction := SpeedPrediction(m, obs.speed, obs.current, mv, friction);
      var r := Update(obs, time, measured, actuation, voltage, speedNumeric);
      && (-MAX_NUM_SPEED <= prediction <= MAX_NUM_SPEED && (obs.speed < 0) != (prediction < 0)
          ==> r.speed == SpeedPrediction(m, obs.speed, obs.current, mv, 0))
      && (obs.speed == 0 ==> r.speed == Clamp(prediction, MAX_NUM_SPEED))
  {
    var m := obs.model;
    var mv := ModelVoltage(voltage, FeedbackVoltage(obs, measured));
    var friction := CoulombFriction(obs.speed, m.torqueFriction, obs.settings.coulombFrictionSpeedCutoff);
    LinearStepWithoutTorque(m.dSpeedDSpeed, m.dSpeedDCurrent, m.dSpeedDVoltage, m.dSpeedDTorque,
                            obs.speed, obs.current, mv, friction);
    DivExact(0, m.dSpeedDTorque);
  }

  /** The estimate the update produces depends on the pre-tick angle, speed
      and current only: the differentiator's speed sample and the stall
      detector's state never feed back into the model. */
  lemma UpdateIgnoresDiagnostics(o1: Observer, o2: Observer, time: uint32, measured: Angle,
                                 actuation: Actuation, voltage: int, speedNumeric: int)
    requires CanUpdate(o1)
    requires o1.model == o2.model && o1.settings == o2.settings
    requires o1.angle == o2.angle && o1.speed == o2.speed && o1.current == o2.current
    ensures
      var r1 := Update(o1, time, measured, actuation, voltage, speedNumeric);
      var r2 := Update(o2, time, measured, actuation, voltage, speedNumeric);
      r1.angle == r2.angle && r1.speed == r2.speed && r1.current == r2.current
  {
  }

  /** Every prescale factor times its quantity's maximum fits in a signed
      32-bit integer, so the prescaled product of any clamped value does. */
  lemma PrescaledClampedValuesFitInt32(speed: int, acceleration: int, current: int, voltage: int, torque: int)
    ensures IsInt32(PRESCALE_SPEED * Clamp(speed, MAX_NUM_SPEED))
    ensures IsInt32(PRESCALE_ACCELERATION * Clamp(acceleration, MAX_NUM_ACCELERATION))
    ensures IsInt32(PRESCALE_CURRENT * Clamp(current, MAX_NUM_CURRENT))
    ensures IsInt32(PRESCALE_VOLTAGE * Clamp(voltage, MAX_NUM_VOLTAGE))
    ensures IsInt32(PRESCALE_TORQUE * Clamp(torque, MAX_NUM_TORQUE))
  {
    ScaledBound(PRESCALE_SPEED, Clamp(speed, MAX_NUM_SPEED), MAX_NUM_SPEED);
    ScaledBound(PRESCALE_ACCELERATION, Clamp(acceleration, MAX_NUM_ACCELERATION), MAX_NUM_ACCELERATION);
    ScaledBound(PRESCALE_CURRENT, Clamp(current, MAX_NUM_CURRENT), MAX_NUM_CURRENT);
    ScaledBound(PRESCALE_VOLTAGE, Clamp(voltage, MAX_NUM_VOLTAGE), MAX_NUM_VOLTAGE);
    ScaledBound(PRESCALE_TORQUE, Clamp(torque, MAX_NUM_TORQUE), MAX_NUM_TORQUE);
  }

  /** The model voltage of every tick, prescaled, fits in 32 bits. */
  lemma PrescaledModelVoltageFitsInt32(voltage: int, feedback: int)
    ensures IsInt32(PRESCALE_VOLTAGE * ModelVoltage(voltage, feedback))
  {
    ScaledBound(PRESCALE_VOLTAGE, ModelVoltage(voltage, feedback), MAX_NUM_VOLTAGE);
  }

  /*-------------------------------------------------------------------------
   * Conversions
   *-----------------------------------------------------------------------*/

  /** Reversing both references reverses the feedforward torque. */
  lemma FeedforwardTorqueOdd(m: ObserverModel, rateRef: int, accelerationRef: int)
    requires m.dTorqueDSpeed != 0 && m.dTorqueDAcceleration != 0
    ensures FeedforwardTorque(m, -rateRef, -accelerationRef) == -FeedforwardTorque(m, rateRef, accelerationRef)
  {
    var rate, acc := Clamp(rateRef, MAX_NUM_SPEED), Clamp(accelerationRef, MAX_NUM_ACCELERATION);
    ClampNegate(rateRef, MAX_NUM_SPEED);
    ClampNegate(accelerationRef, MAX_NUM_ACCELERATION);
    assert PRESCALE_SPEED * -rate == -(PRESCALE_SPEED * rate);
    assert PRESCALE_ACCELERATION * -acc == -(PRESCALE_ACCELERATION * acc);
    DivNegate(PRESCALE_SPEED * rate, m.dTorqueDSpeed);
    DivNegate(PRESCALE_ACCELERATION * acc, m.dTorqueDAcceleration);
    var f := Div(m.torqueFriction, 2);
    assert f * Sign(-rateRef) == -(f * Sign(rateRef));
    var sum := f * Sign(rateRef)
               + Div(PRESCALE_SPEED * rate, m.dTorqueDSpeed)
               + Div(PRESCALE_ACCELERATION * acc, m.dTorqueDAcceleration);
    ClampNegate(sum, MAX_NUM_TORQUE);
  }

  /** Asked to start moving forward without acceleration, the feedforward
      gives at least half the friction torque: the friction compensation
      follows the sign of the reference speed, and back EMF only adds to it. */
  lemma FeedforwardTorqueStartsWithHalfFriction(m: ObserverModel, rateRef: int)
    requires m.dTorqueDSpeed > 0 && m.dTorqueDAcceleration > 0
    requires 0 <= m.torqueFriction <= 2 * MAX_NUM_TORQUE
    requires rateRef > 0
    ensures FeedforwardTorque(m, rateRef, 0) >= Div(m.torqueFriction, 2)
  {
    DivByPositive(m.torqueFriction, 2);
    var c := Clamp(rateRef, MAX_NUM_SPEED);
    assert PRESCALE_SPEED * c > 0;
    DivByPositive(PRESCALE_SPEED * c, m.dTorqueDSpeed);
    DivExact(0, m.dTorqueDAcceleration);
  }

  /** At a reference speed of zero there is no friction compensation and no
      back EMF: only the acceleration torque remains. */
  lemma FeedforwardTorqueAtRest(m: ObserverModel, accelerationRef: int)
    requires m.dTorqueDSpeed != 0 && m.dTorqueDAcceleration != 0
    ensures FeedforwardTorque(m, 0, accelerationRef)
            == Clamp(Div(PRESCALE_ACCELERATION * Clamp(accelerationRef, MAX_NUM_ACCELERATION), m.dTorqueDAcceleration),
                     MAX_NUM_TORQUE)
  {
    DivExact(0, m.dTorqueDSpeed);
  }

  /** Without friction and acceleration the feedforward is the back-EMF
      torque of the clamped reference speed, saturated. */
  lemma FeedforwardTorqueBackEmf(m: ObserverModel, rateRef: int)
    requires m.dTorqueDSpeed != 0 && m.dTorqueDAcceleration != 0
    requires m.torqueFriction == 0
    ensures FeedforwardTorque(m, rateRef, 0)
            == Clamp(Div(PRESCALE_SPEED * Clamp(rateRef, MAX_NUM_SPEED), m.dTorqueDSpeed), MAX_NUM_TORQUE)
  {
    DivExact(0, m.dTorqueDAcceleration);
  }

  /** When the back EMF is negligible (a coefficient larger than any
      prescaled speed) and there is no acceleration, a forward reference
      asks for exactly half the friction torque. */
  lemma FeedforwardTorqueHalfFriction(m: ObserverModel, rateRef: int)
    requires m.dTorqueDSpeed > PRESCALE_SPEED * MAX_NUM_SPEED && m.dTorqueDAcceleration != 0
    requires Abs(m.torqueFriction) <= MAX_NUM_TORQUE
    requires rateRef > 0
    ensures FeedforwardTorque(m, rateRef, 0) == Div(m.torqueFriction, 2)
  {
    DivByPositive(PRESCALE_SPEED * Clamp(rateRef, MAX_NUM_SPEED), m.dTorqueDSpeed);
    DivExact(0, m.dTorqueDAcceleration);
  }

  /** References beyond the maximum speed and acceleration give the same
      feedforward torque as the maxima themselves. */
  lemma FeedforwardTorqueSaturates(m: ObserverModel, rateRef: int, accelerationRef: int)
    requires m.dTorqueDSpeed != 0 && m.dTorqueDAcceleration != 0
    ensures FeedforwardTorque(m, rateRef, accelerationRef)
            == FeedforwardTorque(m, Clamp(rateRef, MAX_NUM_SPEED), Clamp(accelerationRef, MAX_NUM_ACCELERATION))
  {
  }

  /** Torques beyond the maximum convert like the maximum itself. */
  lemma TorqueToVoltageSaturates(m: ObserverModel, torque: int)
    requires m.dVoltageDTorque != 0
    ensures TorqueToVoltage(m, torque) == TorqueToVoltage(m, Clamp(torque, MAX_NUM_TORQUE))
  {
  }

  /** Voltages beyond the maximum convert like the maximum itself. */
  lemma VoltageToTorqueSaturates(m: ObserverModel, voltage: int)
    requires m.dTorqueDVoltage != 0
    ensures VoltageToTorque(m, voltage) == VoltageToTorque(m, Clamp(voltage, MAX_NUM_VOLTAGE))
  {
  }

  /** With a positive coefficient, more torque never asks for less voltage. */
  lemma TorqueToVoltageMonotone(m: ObserverModel, t1: int, t2: int)
    requires m.dVoltageDTorque > 0
    requires t1 <= t2
    ensures TorqueToVoltage(m, t1) <= TorqueToVoltage(m, t2)
  {
    ClampMonotone(t1, t2, MAX_NUM_TORQUE);
    MulMonotone(PRESCALE_TORQUE, Clamp(t1, MAX_NUM_TORQUE), Clamp(t2, MAX_NUM_TORQUE));
    DivMonotone(PRESCALE_TORQUE * Clamp(t1, MAX_NUM_TORQUE), PRESCALE_TORQUE * Clamp(t2, MAX_NUM_TORQUE), m.dVoltageDTorque);
  }

  /** With a positive coefficient, more voltage never gives less torque. */
  lemma VoltageToTorqueMonotone(m: ObserverModel, v1: int, v2: int)
    requires m.dTorqueDVoltage > 0
    requires v1 <= v2
    ensures VoltageToTorque(m, v1) <= VoltageToTorque(m, v2)
  {
    ClampMonotone(v1, v2, MAX_NUM_VOLTAGE);
    MulMonotone(PRESCALE_VOLTAGE, Clamp(v1, MAX_NUM_VOLTAGE), Clamp(v2, MAX_NUM_VOLTAGE));
    DivMonotone(PRESCALE_VOLTAGE * Clamp(v1, MAX_NUM_VOLTAGE), PRESCALE_VOLTAGE * Clamp(v2, MAX_NUM_VOLTAGE), m.dTorqueDVoltage);
  }

  /** Torque to voltage is odd. */
  lemma TorqueToVoltageOdd(m: ObserverModel, torque: int)
    requires m.dVoltageDTorque != 0
    ensures TorqueToVoltage(m, -torque) == -TorqueToVoltage(m, torque)
  {
    var c := Clamp(torque, MAX_NUM_TORQUE);
    ClampNegate(torque, MAX_NUM_TORQUE);
    assert PRESCALE_TORQUE * -c == -(PRESCALE_TORQUE * c);
    DivNegate(PRESCALE_TORQUE * c, m.dVoltageDTorque);
  }

  /** Voltage to torque is odd. */
  lemma VoltageToTorqueOdd(m: ObserverModel, voltage: int)
    requires m.dTorqueDVoltage != 0
    ensures VoltageToTorque(m, -voltage) == -VoltageToTorque(m, voltage)
  {
    var c := Clamp(voltage, MAX_NUM_VOLTAGE);
    ClampNegate(voltage, MAX_NUM_VOLTAGE);
    assert PRESCALE_VOLTAGE * -c == -(PRESCALE_VOLTAGE * c);
    DivNegate(PRESCALE_VOLTAGE * c, m.dTorqueDVoltage);
  }
}
